=== FILE: README.md ===
# kava — a Dafny model of the keep-awake tray controller

kava is a Windows notification-area utility that keeps the workstation from
sleeping. Its logic under the OS and UI calls is small: an inhibitor that
saves and restores the thread execution state, a one-table preferences store
of booleans, the auto-start registration with its 12-byte "startup approved"
record, the theme/state → icon table, and the event loop that ties them
together. This project models each of these as pure functions over immutable
state and proves what the code does, including where it departs from the
obvious invariants.

Modules (one per source file):

- `Wrappers` — `Option` and `Result` (an opaque error).
- `Icons` — `set_icon`'s choice of asset for a theme and activation state.
- `Inhibitor` — `KeepAwake` over the execution state `Os` that the power
  subsystem keeps for the calling thread (the event loop's thread).
  Execution states are sets of flags; the empty set is the zero state. A
  call into the power subsystem is either rejected and returns zero, or
  returns the state in force before it; a request holding the continuous
  flag replaces that state, and any other request (zero included) is a
  one-shot that leaves it in force.
- `Preferences` — the `preferences` table as a `map<string, bool>`.
- `Autolaunch` — the run key and the startup-approved key as two maps.
- `Controller` — the event loop: `Start` is the `StartCause::Init` arm,
  `Step` is one iteration (the event's arm, then the drain of at most one
  timer expiry). Whatever the world answers during an iteration — whether
  the power subsystem accepts a request, whether registry keys can be
  created and written, which pending timer (if any) has expired — is the
  `Env` input of that iteration. Pending timers are a multiset of their
  durations; only a timer pending when the iteration began can expire in
  it, and a panic inside the event's arm ends the iteration before the
  drain.
- `ControllerProperties` — invariants and scenarios over steps and runs.

Behaviour as written, which the model follows:

- The "30 minutes" item starts a 5-second timer.
- A user toggle negates `is_activated` even when `activate` fails, so the
  label and icon stop matching the flag (`FailedToggleBreaksReflects`);
  they match on every run where no toggle from idle sees `activate` fail
  (`RunReflects`), in
  particular whenever the power subsystem accepts every request
  (`AcceptedRunReflects`).
- A timed item sets `is_activated` and the "Deactivate" label even when the
  activation fails.
- Timers are never cancelled and a drained expiry deactivates whatever the
  state: a stale expiry ends a later indefinite activation
  (`StaleExpiryEndsLaterActivation`), rather than being ignored in the idle
  state.
- Deactivation drops a clone of the inhibitor, reasserting its recorded
  `previous`. A recorded zero state, left by a failed `activate`, is a
  one-shot request, so the OS keeps its state and the next accepted toggle
  activates again (`RejectedToggleRecovers`). Because every `activate`
  overwrites `previous`, brackets do not nest: an indefinite activation followed by a timed one leaves the system
  kept awake after the next toggle off (`IndefiniteThenTimedStaysAwake`).
- A theme other than light or dark passes `None` to the tray, so the tray is
  shown without an icon rather than keeping its previous one.
- The toggle-with-left-click key is named `activate_on_left_click`. Its check
  mark flips when clicked (the menu toolkit flips check items) but the new
  value is never saved (`LeftClickItemIsNotPersisted`).
- `is_enabled().unwrap()` panics when no approval value exists, as on a
  machine where the record was never written, and indexing byte 0 panics on
  an empty value; both end the loop (`Flow.Panicked`).
- Quit takes the tray away without releasing the inhibitor; an expiry drained
  in the same iteration then panics when it tries to show the idle icon.

## Model

| member | source | states |
|---|---|---|
| Icons.SelectIcon | src/helpers.rs:28-45 | an icon is chosen iff the theme is light or dark; its variant is active iff activated and its glyph contrasts the theme |
| Icons.SelectIconCharacterised | src/helpers.rs:29-45 | for a known theme, an asset is selected exactly when its shade contrasts the theme and its variant matches the state |
| Icons.SelectIconInjective | src/helpers.rs:28-45 | different (known theme, state) pairs never select the same icon, so active and idle differ and the themes never share one |
| Inhibitor.New | src/keepawake.rs:25-29 | a fresh inhibitor records the zero state as previous |
| Inhibitor.Activate | src/keepawake.rs:31-44 | requests exactly continuous, display and system required; stores the returned prior state even on failure; fails iff that value is zero |
| Inhibitor.SetThreadExecutionState | src/keepawake.rs:16-41 | the power-subsystem call the inhibitor relies on: returns the prior state, or zero iff rejected; only an accepted request holding the continuous flag changes the OS state, to exactly that request |
| Inhibitor.Release | src/keepawake.rs:16-22 | dropping the inhibitor or any clone requests the recorded previous state: it becomes the OS state when it holds the continuous flag, and otherwise (zero included) the OS state is unchanged |
| Inhibitor.ActivateFor | src/keepawake.rs:46-53 | one pending expiry carrying the duration is added iff the activation succeeded; nothing is queued on failure |
| Inhibitor.BracketRestores | src/keepawake.rs:16-44 | one successful activate followed by a release returns the OS to its original continuous state; from a one-shot state the keep-awake flags stay |
| Inhibitor.NestedActivationsDoNotRestore | src/keepawake.rs:36-41 | after two successful activations previous holds the keep-awake flags, so the release leaves them in place |
| Inhibitor.ReleaseIdempotent | src/keepawake.rs:16-22 | releasing twice, or through a clone, is the same as releasing once |
| Inhibitor.FailedActivationReleaseKeepsState | src/keepawake.rs:16-41 | after any failed activation the recorded state is zero, and the later release leaves the OS as the activation left it, which is the original state when the request was rejected |
| Preferences.Open | src/preferences.rs:14-24 | opening creates an empty table when none exists and keeps an existing table's contents |
| Preferences.Exists | src/preferences.rs:72-78 | a key exists iff saving under it adds no new key |
| Preferences.Load | src/preferences.rs:49-55 | the loaded value is the stored one: saving it back leaves the table unchanged; the key must be present (absence panics); SaveThenLoad is its round trip |
| Preferences.Save | src/preferences.rs:38-47 | the saved key holds the value, it is added to the keys, and every other key is unchanged |
| Preferences.Init | src/preferences.rs:26-36 | both recognised keys exist afterwards; absent ones get false / true; existing values are never overwritten |
| Preferences.Toggle | src/preferences.rs:57-70 | on a present key, flips only that key and keeps the key set |
| Preferences.OpenInitDefinesKeys | src/preferences.rs:6-7 | after new and init both keys load; a fresh store holds exactly the two defaults |
| Preferences.InitIdempotent | src/preferences.rs:26-36 | a second init leaves the table unchanged |
| Preferences.SaveThenLoad | src/preferences.rs:38-55 | on every table, a load after a save returns the saved value; every other present key loads as before |
| Preferences.ToggleTwice | src/preferences.rs:57-70 | toggling a key twice restores the original table |
| Autolaunch.ApprovalRecord | src/helpers/autolaunch.rs:11-16 | the approval record is 12 bytes, leading 0x02 (enabled) or 0x03 (disabled), the other 11 zero |
| Autolaunch.Register | src/helpers/autolaunch.rs:18-25 | maps "kava" to the executable path in the run key when key and write are accepted; errors change nothing; never touches the approval key |
| Autolaunch.Enable | src/helpers/autolaunch.rs:27-37 | an accepted write makes the approval key exactly the old one with "kava" mapped to the enabled record, and returns Ok; a failed write returns Err with nothing changed; key creation failure returns Ok with nothing written; the run key is unchanged |
| Autolaunch.Disable | src/helpers/autolaunch.rs:39-49 | the same as enable with the disabled record: exactly "kava" changes on an accepted write, Err with nothing changed on a failed one |
| Autolaunch.SetApproval | src/helpers/autolaunch.rs:28-36 | a write error is returned only when the key opened but the write failed; otherwise Ok |
| Autolaunch.IsEnabled | src/helpers/autolaunch.rs:51-60 | an absent value is an error; otherwise true iff byte 0 equals 2; a present value must be non-empty |
| Autolaunch.DecodeRecord | src/helpers/autolaunch.rs:51-60 | decoding a stored approval record gives back the state it encodes |
| Autolaunch.EnableDisableRoundTrip | src/helpers/autolaunch.rs:27-60 | enable then is_enabled gives true; disable then is_enabled gives false |
| Autolaunch.RegisterIdempotent | src/helpers/autolaunch.rs:18-25 | registering twice yields the same registry as once |
| Controller.Start | src/main.rs:135-181 | panics exactly when, after registering, the approval value is absent or empty; otherwise preferences are opened and defaulted, both marks show the stored values, the auto-start mark shows is_enabled, the registry is the registered one, activated iff run-activated and activate succeeds, label and icon match, nothing pending |
| Controller.ToggleKeepAwake | src/main.rs:39-66 | inactive: label "Deactivate" and active icon iff activate succeeds, else unchanged; active: previous released (restored when it holds the continuous flag), idle icon, label "Activate" |
| Controller.UserToggle | src/main.rs:194-217 | is_activated is negated after every toggle, whether activation succeeded or not; ending activated with the "Activate" label means activate failed |
| Controller.TimedActivate | src/main.rs:220-278 | activated, label "Deactivate" and active icon unconditionally; the duration is queued iff activation succeeded |
| Controller.ClickAutolaunch | src/main.rs:286-291 | the check mark flips; panics without a readable record; an accepted write flips what is_enabled reports; preferences and run key untouched |
| Controller.MenuArm | src/main.rs:208-297 | only Quit exits and only the auto-start item can panic; only the primary and timed items change is_activated, only timed items queue timers, only run-activated writes the store, only auto-start writes the registry |
| Controller.Dispatch | src/main.rs:134-300 | only a Quit click exits; window and tray events never touch the store, registry or timers; a theme change records the new theme and shows the icon for it and the unchanged activation state, and only a theme change changes the theme; only toggles and timed items change is_activated; each check mark changes only on its own item |
| Controller.Drain | src/main.rs:302-313 | at most one expiry is consumed; consuming one releases previous, clears activation, shows idle and "Activate", or panics with the tray gone |
| Controller.Arrived | src/main.rs:302 | only an expiry of a timer pending before the iteration can be received at its tail |
| Controller.MenuArmFrame | src/main.rs:208-297 | each of the run-activated, left-click and auto-start marks changes only on its own item; items that neither toggle nor time keep the inhibitor, OS, timers, activation, label and (except Quit) the tray |
| Controller.Step | src/main.rs:131-314 | a running loop stays ready; it exits only on Quit and panics only on the auto-start item or Quit with a drained expiry; a panicking arm skips the drain; without an arrived expiry the iteration is just the arm; at most one expiry drains; stored keys never change; an exited or panicked loop handles nothing |
| ControllerProperties.Run | src/main.rs:131-314 | a run of iterations keeps the loop ready or terminated |
| ControllerProperties.StartReflects | src/main.rs:149-180 | after Init the label and icon reflect is_activated |
| ControllerProperties.TrayClickGate | src/main.rs:188-206 | a tray event toggles only for a released left button with the left-click mark checked; any other tray event changes nothing |
| ControllerProperties.PrimaryItemToggles | src/main.rs:208-218 | the primary menu item is exactly the user toggle, whatever the left-click setting |
| ControllerProperties.TimedItemDurations | src/main.rs:220-268 | the timed items request 5, 2700, 3600 and 7200 seconds |
| ControllerProperties.OtherEventsKeepActivation | src/main.rs:183-296 | theme changes, preference items, About, Quit and other events never change is_activated, the OS state or the pending timers |
| ControllerProperties.RunActivatedItemTogglesPreference | src/main.rs:280-284 | the run-activated item flips exactly that stored value and leaves the registry alone |
| ControllerProperties.AutolaunchItemTogglesApproval | src/main.rs:286-291 | the auto-start item flips exactly the approval state when the write is accepted and never touches the preferences or run key |
| ControllerProperties.LeftClickItemIsNotPersisted | src/main.rs:208-297 | the left-click item flips its check mark but nothing is written to the store |
| ControllerProperties.QuitExits | src/main.rs:293-313 | quit removes the tray and sets Exit, or panics if an expiry drains in the same iteration; the inhibitor is left as is |
| ControllerProperties.StartInSync | src/main.rs:158-160 | after Init the run-activated mark equals the stored value |
| ControllerProperties.DispatchKeepsInSync | src/main.rs:280-284 | every event arm keeps the run-activated mark equal to the stored value |
| ControllerProperties.StepKeepsInSync | src/main.rs:131-314 | every iteration keeps the run-activated mark equal to the stored value |
| ControllerProperties.ArmPanicSkipsDrain | src/main.rs:286-313 | when the auto-start item panics, no expiry is drained: OS, inhibitor, timers, activation and label stay as they were |
| ControllerProperties.NewTimerDoesNotExpireAtOnce | src/main.rs:220-313 | a timed item leaves the loop activated in its own iteration, even when the input names the new timer's duration, if no timer of that duration was pending, and queues its timer on success |
| ControllerProperties.ExpiryDeactivatesUnconditionally | src/main.rs:302-313 | a drained expiry clears activation, shows idle and "Activate", releases previous and consumes one expiry, whatever the prior state |
| ControllerProperties.StaleExpiryEndsLaterActivation | src/main.rs:208-313 | a 45-minute activation, toggle off, toggle on, then the old expiry: the later indefinite activation is ended |
| ControllerProperties.IndefiniteThenTimedStaysAwake | src/main.rs:208-263 | activate, then a timed item, then toggle off: the label says "Activate" but the OS keeps the keep-awake flags |
| ControllerProperties.DispatchReflects | src/main.rs:134-300 | every event arm keeps label and icon reflecting is_activated, provided a toggle from idle has its activation succeed; other failed activations (timed items) keep them in step |
| ControllerProperties.DrainReflects | src/main.rs:302-313 | draining an expiry keeps label and icon reflecting is_activated |
| ControllerProperties.StepReflects | src/main.rs:131-314 | an iteration keeps label and icon reflecting is_activated unless it toggles on from idle and activate fails |
| ControllerProperties.FailedToggleBreaksReflects | src/main.rs:209-217 | a toggle whose activation fails sets is_activated while the label and icon stay idle |
| ControllerProperties.RejectedToggleRecovers | src/main.rs:39-66 | after a rejected toggle, the toggle off keeps the OS state and the next accepted toggle activates and shows "Deactivate" |
| ControllerProperties.RunReflects | src/main.rs:131-314 | on any run where no toggle from idle sees activate fail, label "Deactivate" iff is_activated and the icon matches |
| ControllerProperties.StartHealthy | src/main.rs:168-180 | a start from a non-zero OS state leaves it non-zero, whether or not its activation is accepted |
| ControllerProperties.DispatchHealthy | src/main.rs:134-300 | every event arm keeps the OS state non-zero when the power subsystem accepts requests |
| ControllerProperties.StepHealthy | src/main.rs:131-314 | with the request accepted, activation succeeds and the state stays healthy |
| ControllerProperties.AcceptedRunNeverFails | src/main.rs:131-314 | from a healthy state, a run in which every request is accepted never sees activate fail |
| ControllerProperties.AcceptedRunReflects | src/main.rs:131-314 | starting from a non-zero OS state with every request after the start accepted, label and icon reflect is_activated after any run |

## Left out

- Icon loading and PNG decoding (`load_icon`, src/helpers.rs:5-25): file I/O and an image library; an icon is named by its asset.
- Window, event-loop, tray and menu construction (src/main.rs:69-131): toolkit plumbing; only the state the handlers change is modelled. The menu toolkit's flipping of a check item's mark on click is assumed.
- Database transactions, durability and database errors (src/preferences.rs:15-21, 39-44, 50-51): each call is one atomic map update that succeeds; the `unwrap`s on `exists` and the failure of `Preferences::new` are therefore not reachable.
- The real `SetThreadExecutionState` and its numeric flag values: the OS is a set of flags holding the state in force; the idle-timer reset a one-shot request performs is not modelled, only that it leaves the continuous state in force.
- Inhibitor.Release: assumes the power subsystem accepts the restore request; a rejected restore (which the source ignores) is not modelled.
- Timer threads and wall-clock sleeping (src/keepawake.rs:48-51): a timer is a pending duration that may expire at any iteration after the one that started it, chosen by the iteration's input; which timer fires first, and how long it slept, is not tied to its duration, which over-approximates the real timing.
- `std::env::current_exe` and its `unwrap`s (src/helpers/autolaunch.rs:19, 23): the executable path is an input string.
- Registry value types: the approval key holds byte strings only, and a missing approval key and a missing value under it are the same error.
- Process exit: what happens to the inhibitor when the process ends after Quit is outside the loop and not modelled.

=== FILE: autolaunch.dfy ===
/** Auto-start registration of src/helpers/autolaunch.rs. The per-user
    registry is two maps: the run key (value name to executable path) and the
    startup-approved key (value name to a byte record the system's startup
    settings maintain). Whether opening or creating a key, or writing a
    value, is accepted is an input of each operation. */
module Autolaunch {
  import opened Wrappers

  newtype Byte = x: int | 0 <= x < 256

  /** The value name the program registers under. */
  const AppName: string := "kava"

  /** The 12-byte approval records for enabled and disabled auto-start. */
  const EnabledValue: seq<Byte> := [0x02, 0x00, 0x00, 0x00, 0x00, 0x00, 0x00, 0x00, 0x00, 0x00, 0x00, 0x00]
  const DisabledValue: seq<Byte> := [0x03, 0x00, 0x00, 0x00, 0x00, 0x00, 0x00, 0x00, 0x00, 0x00, 0x00, 0x00]

  /** The two registry keys the program touches. */
  datatype Registry = Registry(run: map<string, string>, approval: map<string, seq<Byte>>)

  /** A registry after a write, and what the write returned. */
  datatype Written = Written(registry: Registry, result: Result<()>)

  /** The approval record for a desired state: twelve bytes, a leading 0x02
      (enabled) or 0x03 (disabled), the rest zero. */
  function ApprovalRecord(enabled: bool): (v: seq<Byte>)
    ensures |v| == 12
    ensures v[0] == (if enabled then 2 else 3)
    ensures forall i :: 1 <= i < |v| ==> v[i] == 0
  {
    if enabled then EnabledValue else DisabledValue
  }

  /** `register`: maps the program's name to its executable path in the run
      key. Failing to create the key, or to write the value, is returned as
      an error with nothing changed. */
  function Register(reg: Registry, exePath: string, keyOk: bool, writeOk: bool): (w: Written)
    ensures w.result.Ok? <==> keyOk && writeOk
    ensures w.result.Ok? ==> w.registry.run == reg.run[AppName := exePath]
    ensures w.result.Err? ==> w.registry == reg
    ensures w.registry.approval == reg.approval
  {
    if keyOk && writeOk then Written(reg.(run := reg.run[AppName := exePath]), Ok(()))
    else Written(reg, Err)
  }

  /** Shared body of `enable` and `disable`: when the approval key cannot be
      created the call still returns `Ok` with nothing written. */
  function SetApproval(reg: Registry, enabled: bool, keyOk: bool, writeOk: bool): (w: Written)
    ensures w.registry.run == reg.run
    ensures w.result.Err? <==> keyOk && !writeOk
    ensures keyOk && writeOk ==> w.registry.approval == reg.approval[AppName := ApprovalRecord(enabled)]
    ensures !(keyOk && writeOk) ==> w.registry == reg
  {
    if !keyOk then Written(reg, Ok(()))
    else if writeOk then Written(reg.(approval := reg.approval[AppName := ApprovalRecord(enabled)]), Ok(()))
    else Written(reg, Err)
  }

  /** `enable`: writes the enabled approval record. */
  function Enable(reg: Registry, keyOk: bool, writeOk: bool): (w: Written)
    ensures w.registry.run == reg.run
    ensures forall name :: name in reg.approval && name != AppName ==>
              name in w.registry.approval && w.registry.approval[name] == reg.approval[name]
    ensures keyOk && writeOk ==> AppName in w.registry.approval && w.registry.approval[AppName] == EnabledValue
    ensures !keyOk ==> w == Written(reg, Ok(()))
    ensures keyOk && writeOk ==> w.registry.approval == reg.approval[AppName := EnabledValue] && w.result == Ok(())
    ensures keyOk && !writeOk ==> w == Written(reg, Err)
  {
    SetApproval(reg, true, keyOk, writeOk)
  }

  /** `disable`: writes the disabled approval record. */
  function Disable(reg: Registry, keyOk: bool, writeOk: bool): (w: Written)
    ensures w.registry.run == reg.run
    ensures forall name :: name in reg.approval && name != AppName ==>
              name in w.registry.approval && w.registry.approval[name] == reg.approval[name]
    ensures keyOk && writeOk ==> AppName in w.registry.approval && w.registry.approval[AppName] == DisabledValue
    ensures !keyOk ==> w == Written(reg, Ok(()))
    ensures keyOk && writeOk ==> w.registry.approval == reg.approval[AppName := DisabledValue] && w.result == Ok(())
    ensures keyOk && !writeOk ==> w == Written(reg, Err)
  {
    SetApproval(reg, false, keyOk, writeOk)
  }

  /** Whether `is_enabled` can run without panicking: it indexes byte 0 of
      the stored value, so a present value must not be empty. */
  predicate Readable(reg: Registry) {
    AppName in reg.approval ==> |reg.approval[AppName]| > 0
  }

  /** `is_enabled`: an absent approval value is an error; otherwise the
      answer is whether its leading byte is 2. */
  function IsEnabled(reg: Registry): (r: Result<bool>)
    requires Readable(reg)
    ensures r.Err? <==> AppName !in reg.approval
    ensures r.Ok? ==> (r.value <==> reg.approval[AppName][0] == 2)
  {
    if AppName in reg.approval then Ok(reg.approval[AppName][0] == 2) else Err
  }

  /** The leading byte alone decides the decoded state of a record. */
  lemma DecodeRecord(enabled: bool, reg: Registry)
    requires AppName in reg.approval && reg.approval[AppName] == ApprovalRecord(enabled)
    ensures Readable(reg) && IsEnabled(reg) == Ok(enabled)
  {
  }

  /** A successful `enable` reads back as enabled and a successful `disable`
      as disabled. */
  lemma EnableDisableRoundTrip(reg: Registry)
    ensures Readable(Enable(reg, true, true).registry)
    ensures IsEnabled(Enable(reg, true, true).registry) == Ok(true)
    ensures Readable(Disable(reg, true, true).registry)
    ensures IsEnabled(Disable(reg, true, true).registry) == Ok(false)
  {
    DecodeRecord(true, Enable(reg, true, true).registry);
    DecodeRecord(false, Disable(reg, true, true).registry);
  }

  /** `register` is idempotent: registering the same path twice gives the
      registry one registration gives. */
  lemma RegisterIdempotent(reg: Registry, exePath: string, keyOk: bool, writeOk: bool)
    ensures var once := Register(reg, exePath, keyOk, writeOk).registry;
            Register(once, exePath, keyOk, writeOk).registry == once
  {
  }
}

=== FILE: controller.dfy ===
/** The controller of src/main.rs: the tray application's event loop reduced
    to a step function. One iteration of the loop handles one event and then
    drains at most one timer expiry. The toolkit's window, tray and menu
    plumbing is reduced to the state it shows: the primary item's text, the check
    marks and the icon the tray displays. */
module Controller {
  import opened Wrappers
  import Icons
  import Inhibitor
  import Preferences
  import Autolaunch

  const ActivateText: string := "Activate"
  const DeactivateText: string := "Deactivate"

  /** The loop's control flow: still waiting for events, told to exit, or
      ended by a panic inside the handler. */
  datatype Flow = Waiting | Exiting | Panicked

  /** The tray icon: shown (with the icon last set, if any) or taken away by
      Quit. */
  datatype Tray = Shown(icon: Option<Icons.Icon>) | Removed

  datatype State = State(
    isActivated: bool,
    primaryText: string,             // text of the primary menu item
    tray: Tray,
    theme: Icons.Theme,              // the window's current theme
    leftClickChecked: bool,          // "Toggle with left-click" check mark
    runActivatedChecked: bool,       // "Run activated" check mark
    autolaunchChecked: bool,         // "Run at startup" check mark
    keepAwake: Inhibitor.KeepAwake,
    os: Inhibitor.Os,
    prefs: Preferences.Table,
    registry: Autolaunch.Registry,
    pending: multiset<nat>,          // durations of timers whose expiry is not yet drained
    flow: Flow)

  datatype MouseButton = Left | Right | Middle
  datatype ButtonState = Up | Down

  datatype MenuItem =
    | ActivateItem
    | For30Minutes | For45Minutes | For1Hour | For2Hours
    | ToggleWithLeftClickItem | RunActivatedItem | AutolaunchItem
    | AboutItem | QuitItem

  datatype Event =
    | ThemeChanged(theme: Icons.Theme)
    | OtherWindowEvent
    | TrayClick(button: MouseButton, buttonState: ButtonState)
    | OtherTrayEvent
    | MenuClick(item: MenuItem)
    | OtherEvent

  /** What the outside world answers during one iteration: whether the power
      subsystem accepts the activation request, whether registry keys can be
      created and written, and which pending expiry (if any) the channel
      delivers to the tail of the iteration. */
  datatype Env = Env(osOk: bool, keyOk: bool, writeOk: bool, fire: Option<nat>)

  /** The state the program starts from at `StartCause::Init`. */
  datatype Boot = Boot(
    table: Option<Preferences.Table>,
    registry: Autolaunch.Registry,
    os: Inhibitor.Os,
    theme: Icons.Theme,
    exePath: string)

  predicate IsTimed(item: MenuItem) {
    item == For30Minutes || item == For45Minutes || item == For1Hour || item == For2Hours
  }

  /** The menu items whose handler may change the activation state. */
  predicate TogglesOrTimes(item: MenuItem) {
    item == ActivateItem || IsTimed(item)
  }

  /** The number of seconds each "Activate for" item passes to
      `activate_for`; the "30 minutes" item passes 5. */
  function TimedSeconds(item: MenuItem): nat
    requires IsTimed(item)
  {
    match item
    case For30Minutes => 5
    case For45Minutes => 45 * 60
    case For1Hour => 1 * 60 * 60
    case For2Hours => 2 * 60 * 60
  }

  /** The tray after `set_icon`: shows the icon selected for the theme and
      state (no icon for an unknown theme). */
  function ShowIcon(theme: Icons.Theme, active: bool): Tray {
    Shown(Icons.SelectIcon(theme, active))
  }

  /** The state every handler relies on once the loop runs: the tray exists
      and the run-activated preference can be loaded. */
  predicate Ready(s: State) {
    s.flow == Waiting && s.tray.Shown? && Preferences.Exists(s.prefs, Preferences.RunActivated)
  }

  /** Whatever state the loop is in, a running loop is ready. */
  predicate Valid(s: State) {
    s.flow == Waiting ==> Ready(s)
  }

  /** Whether an `activate` call in state `s` under `env` returns `Ok`. */
  predicate ActivationSucceeds(s: State, env: Env) {
    Inhibitor.Activate(s.keepAwake, s.os, env.osOk).success
  }

  /** Whether event `e` in state `s` is a user toggle from idle, the only
      handler whose failed activation leaves the primary item's text and
      icon out of step with `is_activated`. */
  predicate TogglesOn(s: State, e: Event) {
    && !s.isActivated
    && (e == MenuClick(ActivateItem)
        || (e.TrayClick? && e.button == Left && e.buttonState == Up && s.leftClickChecked))
  }

  /** The iteration's activation succeeds whenever the event toggles on. */
  predicate ToggleOnSucceeds(s: State, e: Event, env: Env) {
    s.flow == Waiting && TogglesOn(s, e) ==> ActivationSucceeds(s, env)
  }

  /** The `StartCause::Init` arm: show the idle icon, open and default the
      preferences, reflect them in the check marks, register for auto-start,
      read the approval record (unwrapping it), create the inhibitor and,
      when "Run activated" is checked, activate. The channel is empty. */
  function Start(b: Boot, env: Env): (s: State)
    ensures Valid(s)
    ensures s.pending == multiset{}
    ensures s.flow == Waiting ==> s.prefs == Preferences.Init(Preferences.Open(b.table))
    ensures s.flow == Waiting ==> s.runActivatedChecked == Preferences.Load(s.prefs, Preferences.RunActivated)
    ensures s.flow == Waiting ==> (s.isActivated <==>
              s.runActivatedChecked && Inhibitor.Activate(Inhibitor.New(), b.os, env.osOk).success)
    ensures s.flow == Waiting ==> (s.primaryText == DeactivateText <==> s.isActivated)
    ensures s.flow == Waiting ==> s.tray == ShowIcon(b.theme, s.isActivated)
    ensures s.flow != Exiting
    ensures var reg := Autolaunch.Register(b.registry, b.exePath, env.keyOk, env.writeOk).registry;
            && (s.flow == Panicked <==> !Autolaunch.Readable(reg) || Autolaunch.AppName !in reg.approval)
            && (s.flow == Waiting ==>
                  s.registry == reg && Autolaunch.Readable(reg) && Autolaunch.AppName in reg.approval
                  && s.autolaunchChecked == Autolaunch.IsEnabled(reg).value)
    ensures s.flow == Waiting ==> s.leftClickChecked == Preferences.Load(s.prefs, Preferences.ToggleWithLeftClick)
  {
    var prefs := Preferences.Init(Preferences.Open(b.table));
    var runActivated := Preferences.Load(prefs, Preferences.RunActivated);
    var leftClick := Preferences.Load(prefs, Preferences.ToggleWithLeftClick);
    var reg := Autolaunch.Register(b.registry, b.exePath, env.keyOk, env.writeOk).registry;
    var base := State(false, ActivateText, ShowIcon(b.theme, false), b.theme,
                      leftClick, runActivated, true, Inhibitor.New(), b.os,
                      prefs, reg, multiset{}, Waiting);
    if !Autolaunch.Readable(reg) then base.(flow := Panicked)
    else match Autolaunch.IsEnabled(reg)
      case Err => base.(flow := Panicked)
      case Ok(enabled) =>
        var s := base.(autolaunchChecked := enabled);
        if !runActivated then s
        else
          var a := Inhibitor.Activate(s.keepAwake, s.os, env.osOk);
          if a.success then
            s.(keepAwake := a.k, os := a.os, tray := ShowIcon(s.theme, true),
               primaryText := DeactivateText, isActivated := true)
          else s.(keepAwake := a.k, os := a.os)
  }

  /** `toggle_keepawake`: when inactive, activate and, only on success, show
      the active icon and the "Deactivate" text; when active, drop a clone
      of the inhibitor (reasserting its recorded state), show the idle icon
      and the "Activate" text. `is_activated` itself is left to the caller. */
  function ToggleKeepAwake(s: State, osOk: bool): (r: State)
    ensures r.isActivated == s.isActivated && r.theme == s.theme && r.prefs == s.prefs
    ensures r.registry == s.registry && r.pending == s.pending && r.flow == s.flow
    ensures r.leftClickChecked == s.leftClickChecked && r.runActivatedChecked == s.runActivatedChecked && r.autolaunchChecked == s.autolaunchChecked
    ensures !s.isActivated ==> r.keepAwake == Inhibitor.Activate(s.keepAwake, s.os, osOk).k
    ensures !s.isActivated ==> r.os == Inhibitor.Activate(s.keepAwake, s.os, osOk).os
    ensures !s.isActivated && Inhibitor.Activate(s.keepAwake, s.os, osOk).success ==>
              r.primaryText == DeactivateText && r.tray == ShowIcon(s.theme, true)
    ensures !s.isActivated && !Inhibitor.Activate(s.keepAwake, s.os, osOk).success ==>
              r.primaryText == s.primaryText && r.tray == s.tray
    ensures s.isActivated ==> r.os == Inhibitor.Release(s.keepAwake, s.os) && r.keepAwake == s.keepAwake
    ensures s.isActivated ==> r.primaryText == ActivateText && r.tray == ShowIcon(s.theme, false)
  {
    if !s.isActivated then
      var a := Inhibitor.Activate(s.keepAwake, s.os, osOk);
      if a.success then
        s.(keepAwake := a.k, os := a.os, tray := ShowIcon(s.theme, true), primaryText := DeactivateText)
      else s.(keepAwake := a.k, os := a.os)
    else
      s.(os := Inhibitor.Release(s.keepAwake, s.os), tray := ShowIcon(s.theme, false), primaryText := ActivateText)
  }

  /** A user toggle (tray click or primary item): `toggle_keepawake`, then
      `is_activated` is negated whether or not the activation succeeded. */
  function UserToggle(s: State, osOk: bool): (r: State)
    ensures r.isActivated == !s.isActivated
    ensures r.prefs == s.prefs && r.registry == s.registry && r.pending == s.pending && r.flow == s.flow
    ensures r.isActivated && r.primaryText == ActivateText ==> !Inhibitor.Activate(s.keepAwake, s.os, osOk).success
    ensures r.theme == s.theme && r.leftClickChecked == s.leftClickChecked && r.runActivatedChecked == s.runActivatedChecked && r.autolaunchChecked == s.autolaunchChecked
  {
    ToggleKeepAwake(s, osOk).(isActivated := !s.isActivated)
  }

  /** One "Activate for" item: `activate_for` with the item's duration, then
      the active icon, the "Deactivate" text and `is_activated`, all set
      whether or not the activation succeeded. */
  function TimedActivate(s: State, item: MenuItem, osOk: bool): (r: State)
    requires IsTimed(item)
    ensures r.isActivated && r.primaryText == DeactivateText && r.tray == ShowIcon(s.theme, true)
    ensures Inhibitor.Activate(s.keepAwake, s.os, osOk).success ==> r.pending == s.pending + multiset{TimedSeconds(item)}
    ensures !Inhibitor.Activate(s.keepAwake, s.os, osOk).success ==> r.pending == s.pending
    ensures r.os.state == (if osOk then Inhibitor.KeepAwakeFlags else s.os.state)
    ensures r.keepAwake == Inhibitor.Activate(s.keepAwake, s.os, osOk).k
    ensures r.prefs == s.prefs && r.registry == s.registry && r.flow == s.flow
    ensures r.theme == s.theme && r.leftClickChecked == s.leftClickChecked && r.runActivatedChecked == s.runActivatedChecked && r.autolaunchChecked == s.autolaunchChecked
  {
    var t := Inhibitor.ActivateFor(s.keepAwake, s.os, osOk, TimedSeconds(item), s.pending);
    s.(keepAwake := t.k, os := t.os, pending := t.pending,
       tray := ShowIcon(s.theme, true), primaryText := DeactivateText, isActivated := true)
  }

  /** The "Run at startup" item: the check mark flips (the toolkit does that
      for check items), then the approval record is read, unwrapping it, and
      the opposite state is written. */
  function ClickAutolaunch(s: State, keyOk: bool, writeOk: bool): (r: State)
    ensures r.autolaunchChecked == !s.autolaunchChecked
    ensures r.isActivated == s.isActivated && r.prefs == s.prefs && r.registry.run == s.registry.run
    ensures r.flow == (if !Autolaunch.Readable(s.registry) || Autolaunch.AppName !in s.registry.approval then Panicked else s.flow)
    ensures r.tray == s.tray && r.theme == s.theme
    ensures r.leftClickChecked == s.leftClickChecked && r.runActivatedChecked == s.runActivatedChecked
    ensures r.os == s.os && r.keepAwake == s.keepAwake && r.pending == s.pending && r.primaryText == s.primaryText
    ensures r.flow != Panicked && keyOk && writeOk ==>
              Autolaunch.Readable(r.registry) && Autolaunch.IsEnabled(r.registry) == Ok(!Autolaunch.IsEnabled(s.registry).value)
  {
    var s1 := s.(autolaunchChecked := !s.autolaunchChecked);
    if !Autolaunch.Readable(s.registry) then s1.(flow := Panicked)
    else match Autolaunch.IsEnabled(s.registry)
      case Err => s1.(flow := Panicked)
      case Ok(enabled) =>
        Autolaunch.EnableDisableRoundTrip(s.registry);
        var w := if enabled then Autolaunch.Disable(s.registry, keyOk, writeOk)
                 else Autolaunch.Enable(s.registry, keyOk, writeOk);
        s1.(registry := w.registry)
  }

  /** The handler for a menu item. Every item is compared against the event's
      id, and exactly one matches. */
  function MenuArm(s: State, item: MenuItem, env: Env): (r: State)
    requires Ready(s)
    ensures Valid(r) && Preferences.Exists(r.prefs, Preferences.RunActivated)
    ensures r.flow == Exiting <==> item == QuitItem
    ensures r.flow == Panicked ==> item == AutolaunchItem
    ensures r.isActivated != s.isActivated ==> item == ActivateItem || IsTimed(item)
    ensures r.pending != s.pending ==> IsTimed(item)
    ensures s.pending <= r.pending
    ensures r.prefs != s.prefs ==> item == RunActivatedItem
    ensures r.prefs.Keys == s.prefs.Keys
    ensures r.registry != s.registry ==> item == AutolaunchItem
  {
    match item
    case ActivateItem => UserToggle(s, env.osOk)
    case For30Minutes => TimedActivate(s, item, env.osOk)
    case For45Minutes => TimedActivate(s, item, env.osOk)
    case For1Hour => TimedActivate(s, item, env.osOk)
    case For2Hours => TimedActivate(s, item, env.osOk)
    case ToggleWithLeftClickItem => s.(leftClickChecked := !s.leftClickChecked)
    case RunActivatedItem =>
      s.(runActivatedChecked := !s.runActivatedChecked,
         prefs := Preferences.Toggle(s.prefs, Preferences.RunActivated))
    case AutolaunchItem => ClickAutolaunch(s, env.keyOk, env.writeOk)
    case AboutItem => s
    case QuitItem => s.(tray := Removed, flow := Exiting)
  }

  /** What each menu handler leaves alone: each check mark is touched only
      by its own item, and the items that neither toggle nor time keep the
      inhibitor, the OS, the timers, the activation state and (except Quit)
      the tray. */
  lemma MenuArmFrame(s: State, item: MenuItem, env: Env)
    requires Ready(s)
    ensures var r := MenuArm(s, item, env);
            && (r.runActivatedChecked != s.runActivatedChecked ==> item == RunActivatedItem)
            && (r.leftClickChecked != s.leftClickChecked ==> item == ToggleWithLeftClickItem)
            && (r.autolaunchChecked != s.autolaunchChecked ==> item == AutolaunchItem)
            && (!TogglesOrTimes(item) ==>
                  r.os == s.os && r.keepAwake == s.keepAwake && r.pending == s.pending
                  && r.isActivated == s.isActivated && r.primaryText == s.primaryText && r.theme == s.theme)
            && (!TogglesOrTimes(item) && item != QuitItem ==> r.tray == s.tray)
  {
  }

  /** The match on the event, before the expiry drain. */
  function Dispatch(s: State, e: Event, env: Env): (r: State)
    requires Ready(s)
    ensures Valid(r) && Preferences.Exists(r.prefs, Preferences.RunActivated)
    ensures r.flow == Exiting <==> e == MenuClick(QuitItem)
    ensures !e.MenuClick? ==> r.flow == Waiting && r.prefs == s.prefs && r.registry == s.registry && r.pending == s.pending
    ensures r.theme != s.theme ==> e.ThemeChanged?
    ensures r.isActivated != s.isActivated ==> e.TrayClick? || (e.MenuClick? && (e.item == ActivateItem || IsTimed(e.item)))
    ensures s.pending <= r.pending
    ensures r.flow == Panicked ==> e == MenuClick(AutolaunchItem)
    ensures e != MenuClick(RunActivatedItem) ==> r.prefs == s.prefs && r.runActivatedChecked == s.runActivatedChecked
    ensures r.prefs.Keys == s.prefs.Keys
    ensures !e.TrayClick? && !(e.MenuClick? && TogglesOrTimes(e.item)) ==>
              r.os == s.os && r.keepAwake == s.keepAwake && r.pending == s.pending
              && r.isActivated == s.isActivated && r.primaryText == s.primaryText
    ensures !e.TrayClick? && !(e.MenuClick? && TogglesOrTimes(e.item)) && !e.ThemeChanged? && e != MenuClick(QuitItem) ==>
              r.tray == s.tray && r.theme == s.theme
    ensures e != MenuClick(ToggleWithLeftClickItem) ==> r.leftClickChecked == s.leftClickChecked
    ensures e != MenuClick(AutolaunchItem) ==> r.autolaunchChecked == s.autolaunchChecked
    ensures e.ThemeChanged? ==>
              r.theme == e.theme && r.tray == ShowIcon(e.theme, s.isActivated) && r.isActivated == s.isActivated
  {
    match e
    case ThemeChanged(theme) => s.(theme := theme, tray := ShowIcon(theme, s.isActivated))
    case TrayClick(button, buttonState) =>
      if button == Left && buttonState == Up && s.leftClickChecked then UserToggle(s, env.osOk) else s
    case MenuClick(item) => MenuArmFrame(s, item, env); MenuArm(s, item, env)
    case OtherWindowEvent => s
    case OtherTrayEvent => s
    case OtherEvent => s
  }

  /** The tail of each iteration: a non-blocking receive of at most one
      expiry. A delivered expiry drops a clone of the inhibitor, shows the
      idle icon, sets the "Activate" text and clears `is_activated`,
      whatever the state was; with the tray already taken, showing the icon
      panics after the release. `fire` naming no pending timer means the
      receive found the channel empty. */
  function Drain(s: State, fire: Option<nat>): (r: State)
    ensures r.pending <= s.pending && |s.pending| <= |r.pending| + 1
    ensures r.prefs == s.prefs && r.registry == s.registry && r.theme == s.theme
    ensures fire.Some? && fire.value in s.pending ==>
              r.pending == s.pending - multiset{fire.value} && r.os == Inhibitor.Release(s.keepAwake, s.os)
    ensures fire.Some? && fire.value in s.pending && s.tray.Shown? ==>
              !r.isActivated && r.primaryText == ActivateText && r.tray == ShowIcon(s.theme, false) && r.flow == s.flow
    ensures fire.Some? && fire.value in s.pending && s.tray.Removed? ==> r.flow == Panicked
    ensures !(fire.Some? && fire.value in s.pending) ==> r == s
    ensures r.flow == s.flow || r.flow == Panicked
    ensures r.tray.Shown? <==> s.tray.Shown?
    ensures r.keepAwake == s.keepAwake
    ensures r.runActivatedChecked == s.runActivatedChecked && r.leftClickChecked == s.leftClickChecked
    ensures r.autolaunchChecked == s.autolaunchChecked
  {
    if fire.Some? && fire.value in s.pending then
      var released := s.(os := Inhibitor.Release(s.keepAwake, s.os),
                         pending := s.pending - multiset{fire.value});
      if s.tray.Removed? then released.(flow := Panicked)
      else released.(tray := ShowIcon(s.theme, false), primaryText := ActivateText, isActivated := false)
    else s
  }

  /** The expiry the channel can deliver at the tail of an iteration: only a
      timer already pending when the iteration began can have slept its
      duration, so a timer the iteration itself starts never expires in it. */
  function Arrived(pendingBefore: multiset<nat>, fire: Option<nat>): (a: Option<nat>)
    ensures a.Some? ==> a == fire && a.value in pendingBefore
    ensures fire.Some? && fire.value in pendingBefore ==> a == fire
  {
    if fire.Some? && fire.value in pendingBefore then fire else None
  }

  /** One iteration of the event loop: the event's arm, then the drain. A
      panic inside the arm unwinds the handler, so nothing is drained after
      it. Once the loop has exited or panicked no further event is handled. */
  function Step(s: State, e: Event, env: Env): (r: State)
    requires Valid(s)
    ensures Valid(r)
    ensures s.flow != Waiting ==> r == s
    ensures r.prefs.Keys == s.prefs.Keys
    ensures s.flow == Waiting ==> |Dispatch(s, e, env).pending| <= |r.pending| + 1
    ensures s.flow == Waiting && r.flow == Waiting ==> r.tray.Shown?
    ensures s.flow == Waiting && r.flow == Exiting ==> e == MenuClick(QuitItem)
    ensures s.flow == Waiting && e == MenuClick(QuitItem) ==>
              r.flow == (if env.fire.Some? && env.fire.value in s.pending then Panicked else Exiting)
    ensures s.flow == Waiting && r.flow == Panicked ==>
              e == MenuClick(AutolaunchItem) || (e == MenuClick(QuitItem) && env.fire.Some? && env.fire.value in s.pending)
    ensures s.flow == Waiting && Dispatch(s, e, env).flow == Panicked ==> r == Dispatch(s, e, env)
    ensures s.flow == Waiting && !(env.fire.Some? && env.fire.value in s.pending) ==> r == Dispatch(s, e, env)
  {
    if s.flow != Waiting then s
    else
      var d := Dispatch(s, e, env);
      if d.flow == Panicked then d else Drain(d, Arrived(s.pending, env.fire))
  }
}

=== FILE: controller_properties.dfy ===
/** Properties of the controller's step function, one iteration at a time
    and over whole runs of the event loop. */
module ControllerProperties {
  import opened Wrappers
  import Inhibitor
  import Preferences
  import Autolaunch
  import opened Controller

  /** One loop iteration's event with the world's answers during it. */
  datatype Input = Input(event: Event, env: Env)

  /** The loop run over a sequence of inputs. */
  function Run(s: State, inputs: seq<Input>): (r: State)
    requires Valid(s)
    ensures Valid(r)
    ensures s.flow != Waiting ==> r == s
    decreases |inputs|
  {
    if |inputs| == 0 then s
    else Run(Step(s, inputs[0].event, inputs[0].env), inputs[1..])
  }

  /** The tray shows what `is_activated` says: the "Deactivate" label and
      the active icon exactly when activated. */
  predicate Reflects(s: State) {
    s.flow == Waiting ==>
      (s.primaryText == DeactivateText <==> s.isActivated)
      && s.tray == ShowIcon(s.theme, s.isActivated)
  }

  /** Every toggle from idle on the run has its `activate` call return
      `Ok`; other activations (the timed items) may fail. */
  predicate NeverFails(s: State, inputs: seq<Input>)
    requires Valid(s)
    decreases |inputs|
  {
    |inputs| == 0
    || (ToggleOnSucceeds(s, inputs[0].event, inputs[0].env)
        && NeverFails(Step(s, inputs[0].event, inputs[0].env), inputs[1..]))
  }

  /** Start leaves the tray reflecting the activation state. */
  lemma StartReflects(b: Boot, env: Env)
    ensures Reflects(Start(b, env))
  {
  }

  /** A tray event toggles only for a released left button with
      "Toggle with left-click" checked; any other tray event changes nothing. */
  lemma TrayClickGate(s: State, button: MouseButton, buttonState: ButtonState, env: Env)
    requires Ready(s)
    ensures button == Left && buttonState == Up && s.leftClickChecked ==>
              Dispatch(s, TrayClick(button, buttonState), env) == UserToggle(s, env.osOk)
    ensures !(button == Left && buttonState == Up && s.leftClickChecked) ==>
              Dispatch(s, TrayClick(button, buttonState), env) == s
    ensures Dispatch(s, OtherTrayEvent, env) == s
  {
  }

  /** The primary menu item is the user toggle, whatever the tray-click
      setting: the menu counterpart of `TrayClickGate`. */
  lemma PrimaryItemToggles(s: State, env: Env)
    requires Ready(s)
    ensures Dispatch(s, MenuClick(ActivateItem), env) == UserToggle(s, env.osOk)
  {
  }

  /** The timed items request 5 s, 45 min, 1 h and 2 h. */
  lemma TimedItemDurations()
    ensures TimedSeconds(For30Minutes) == 5
    ensures TimedSeconds(For45Minutes) == 2700
    ensures TimedSeconds(For1Hour) == 3600
    ensures TimedSeconds(For2Hours) == 7200
  {
  }

  /** Only a toggle, a timed item or a drained expiry changes `is_activated`:
      a theme change, the preference items, About and unrelated events keep
      it, and the two persisted items change exactly their own store. */
  lemma OtherEventsKeepActivation(s: State, e: Event, env: Env)
    requires Ready(s)
    requires e.ThemeChanged? || e.OtherWindowEvent? || e.OtherEvent? || e.OtherTrayEvent?
          || (e.MenuClick? && e.item in {ToggleWithLeftClickItem, RunActivatedItem, AutolaunchItem, AboutItem, QuitItem})
    ensures Dispatch(s, e, env).isActivated == s.isActivated
    ensures Dispatch(s, e, env).os == s.os && Dispatch(s, e, env).pending == s.pending
    ensures e != MenuClick(RunActivatedItem) ==> Dispatch(s, e, env).prefs == s.prefs
    ensures e != MenuClick(AutolaunchItem) ==> Dispatch(s, e, env).registry == s.registry
  {
  }

  /** The "Run activated" item flips exactly the persisted run-activated
      value, and nothing in the registry. */
  lemma RunActivatedItemTogglesPreference(s: State, env: Env)
    requires Ready(s)
    ensures var r := Dispatch(s, MenuClick(RunActivatedItem), env);
            && Preferences.Exists(r.prefs, Preferences.RunActivated)
            && Preferences.Load(r.prefs, Preferences.RunActivated) == !Preferences.Load(s.prefs, Preferences.RunActivated)
            && r.prefs.Keys == s.prefs.Keys
            && (forall k :: k in s.prefs && k != Preferences.RunActivated ==> r.prefs[k] == s.prefs[k])
            && r.registry == s.registry
  {
  }

  /** The "Run at startup" item flips exactly the approval record when the
      registry accepts the write, and never touches the preferences or the
      run key; with no readable record the handler panics. */
  lemma AutolaunchItemTogglesApproval(s: State, env: Env)
    requires Ready(s)
    ensures var r := Dispatch(s, MenuClick(AutolaunchItem), env);
            && r.prefs == s.prefs
            && r.registry.run == s.registry.run
            && (r.flow == Panicked <==> !Autolaunch.Readable(s.registry) || Autolaunch.AppName !in s.registry.approval)
            && (r.flow == Waiting && env.keyOk && env.writeOk ==>
                  Autolaunch.Readable(r.registry)
                  && Autolaunch.IsEnabled(r.registry) == Ok(!Autolaunch.IsEnabled(s.registry).value))
  {
  }

  /** The "Toggle with left-click" item flips its check mark but the new
      value is never written to the preferences store. */
  lemma LeftClickItemIsNotPersisted(s: State, env: Env)
    requires Ready(s)
    ensures var r := Dispatch(s, MenuClick(ToggleWithLeftClickItem), env);
            r.leftClickChecked == !s.leftClickChecked && r.prefs == s.prefs
  {
  }

  /** Quit takes the tray and asks the loop to exit; if an expiry is drained
      in the same iteration, showing the idle icon on the missing tray
      panics. The inhibitor is left as it is. */
  lemma QuitExits(s: State, env: Env)
    requires Ready(s)
    ensures var r := Step(s, MenuClick(QuitItem), env);
            && r.tray == Removed
            && r.flow == (if env.fire.Some? && env.fire.value in s.pending then Panicked else Exiting)
            && r.keepAwake == s.keepAwake
  {
  }

  /** The run-activated check mark shows the persisted value. */
  predicate InSync(s: State) {
    Ready(s) ==> s.runActivatedChecked == Preferences.Load(s.prefs, Preferences.RunActivated)
  }

  lemma StartInSync(b: Boot, env: Env)
    ensures InSync(Start(b, env))
  {
  }

  /** Every event handler keeps the run-activated check mark and its
      persisted value in step. */
  lemma DispatchKeepsInSync(s: State, e: Event, env: Env)
    requires Ready(s) && InSync(s)
    ensures InSync(Dispatch(s, e, env))
  {
  }

  /** Every iteration keeps the run-activated check mark and its persisted
      value in step. */
  lemma StepKeepsInSync(s: State, e: Event, env: Env)
    requires Valid(s) && InSync(s)
    ensures InSync(Step(s, e, env))
  {
    if s.flow == Waiting {
      DispatchKeepsInSync(s, e, env);
    }
  }

  /** A panic inside an event's arm unwinds the handler before the drain:
      when the auto-start item finds no approval record, the loop stops with
      the inhibitor, the OS, the timers and the activation state as they
      were, even if an expiry was waiting. */
  lemma ArmPanicSkipsDrain(s: State, env: Env)
    requires Ready(s) && Autolaunch.AppName !in s.registry.approval
    ensures var r := Step(s, MenuClick(AutolaunchItem), env);
            && r.flow == Panicked
            && r.os == s.os && r.keepAwake == s.keepAwake && r.pending == s.pending
            && r.isActivated == s.isActivated && r.primaryText == s.primaryText
  {
  }

  /** A timer never expires in the iteration that starts it: choosing a
      timed item leaves the loop activated even when the iteration's input
      names the new timer's duration, if no such timer was pending before. */
  lemma NewTimerDoesNotExpireAtOnce(s: State, item: MenuItem, osOk: bool, keyOk: bool, writeOk: bool)
    requires Ready(s) && IsTimed(item) && TimedSeconds(item) !in s.pending
    ensures var r := Step(s, MenuClick(item), Env(osOk, keyOk, writeOk, Some(TimedSeconds(item))));
            && r.isActivated && r.primaryText == DeactivateText && r.flow == Waiting
            && (osOk && s.os.state != Inhibitor.Zero ==> TimedSeconds(item) in r.pending)
  {
  }

  /** A drained expiry ends any activation, including an indefinite one
      started after the timer: it releases the inhibitor and shows the idle
      state, whatever the state was before. */
  lemma ExpiryDeactivatesUnconditionally(s: State, e: Event, env: Env)
    requires Ready(s)
    requires env.fire.Some? && env.fire.value in s.pending
    requires Dispatch(s, e, env).flow == Waiting
    ensures var r := Step(s, e, env);
            && !r.isActivated
            && r.primaryText == ActivateText
            && r.tray == ShowIcon(r.theme, false)
            && r.os == Inhibitor.Release(Dispatch(s, e, env).keepAwake, Dispatch(s, e, env).os)
            && |r.pending| == |Dispatch(s, e, env).pending| - 1
  {
  }

  /** A stale timer ends a later indefinite activation: a 45-minute
      activation, a toggle off and a toggle on leave the 45-minute expiry
      pending, and draining it deactivates. */
  lemma StaleExpiryEndsLaterActivation(s: State, osOk: bool)
    requires Ready(s) && !s.isActivated && s.os.state != Inhibitor.Zero && osOk
    ensures var quiet := Env(osOk, false, false, None);
            var s1 := Step(s, MenuClick(For45Minutes), quiet);
            var s2 := Step(s1, MenuClick(ActivateItem), quiet);
            var s3 := Step(s2, MenuClick(ActivateItem), quiet);
            var s4 := Step(s3, OtherEvent, Env(osOk, false, false, Some(2700)));
            && s3.isActivated && s3.primaryText == DeactivateText
            && 2700 in s3.pending
            && !s4.isActivated && s4.primaryText == ActivateText
  {
    var quiet := Env(osOk, false, false, None);
    var s1 := Step(s, MenuClick(For45Minutes), quiet);
    assert s1 == TimedActivate(s, For45Minutes, osOk);
    assert s1.pending == s.pending + multiset{2700};
    var s2 := Step(s1, MenuClick(ActivateItem), quiet);
    PrimaryItemToggles(s1, quiet);
    assert s2 == UserToggle(s1, osOk);
    assert s2.os.state != Inhibitor.Zero;
    var s3 := Step(s2, MenuClick(ActivateItem), quiet);
    PrimaryItemToggles(s2, quiet);
    assert s3 == UserToggle(s2, osOk);
    assert 2700 in s3.pending;
  }

  /** Brackets do not nest through the controller either: an indefinite
      activation followed by a timed one records the keep-awake flags as
      the state to restore, so the next toggle off shows "Activate" while
      the system stays kept awake. */
  lemma IndefiniteThenTimedStaysAwake(s: State, osOk: bool)
    requires Ready(s) && !s.isActivated && s.os.state != Inhibitor.Zero && osOk
    ensures var quiet := Env(osOk, false, false, None);
            var s1 := Step(s, MenuClick(ActivateItem), quiet);
            var s2 := Step(s1, MenuClick(For1Hour), quiet);
            var s3 := Step(s2, MenuClick(ActivateItem), quiet);
            && s1.isActivated && s2.isActivated
            && !s3.isActivated && s3.primaryText == ActivateText
            && s3.os.state == Inhibitor.KeepAwakeFlags
  {
  }

  /** Every event handler keeps the tray reflecting `is_activated`,
      provided the activation it may attempt succeeds. */
  lemma DispatchReflects(s: State, e: Event, env: Env)
    requires Ready(s) && Reflects(s) && ToggleOnSucceeds(s, e, env)
    ensures Reflects(Dispatch(s, e, env))
  {
  }

  /** Draining an expiry keeps the tray reflecting `is_activated`. */
  lemma DrainReflects(s: State, fire: Option<nat>)
    requires Reflects(s)
    ensures Reflects(Drain(s, fire))
  {
  }

  /** One iteration keeps the tray reflecting `is_activated`, provided the
      activation it may attempt succeeds. */
  lemma StepReflects(s: State, e: Event, env: Env)
    requires Valid(s) && Reflects(s) && ToggleOnSucceeds(s, e, env)
    ensures Reflects(Step(s, e, env))
  {
    if s.flow == Waiting {
      DispatchReflects(s, e, env);
      DrainReflects(Dispatch(s, e, env), Arrived(s.pending, env.fire));
    }
  }

  /** A failed activation breaks the correspondence: toggling while idle when
      `activate` fails still sets `is_activated`, but the label keeps saying
      "Activate" and the icon stays idle. */
  lemma FailedToggleBreaksReflects(s: State, env: Env)
    requires Ready(s) && Reflects(s) && !s.isActivated && !ActivationSucceeds(s, env)
    requires env.fire.None?
    ensures var r := Step(s, MenuClick(ActivateItem), env);
            r.isActivated && r.primaryText == s.primaryText != DeactivateText && !Reflects(r)
  {
  }

  /** A rejected activation does not stick: the toggle that follows it
      releases a recorded zero state, which leaves the OS state in force, so
      the next accepted toggle activates and shows "Deactivate" again. */
  lemma RejectedToggleRecovers(s: State)
    requires Ready(s) && !s.isActivated && s.os.state != Inhibitor.Zero
    ensures var rejected := Env(false, false, false, None);
            var accepted := Env(true, false, false, None);
            var s1 := Step(s, MenuClick(ActivateItem), rejected);
            var s2 := Step(s1, MenuClick(ActivateItem), accepted);
            var s3 := Step(s2, MenuClick(ActivateItem), accepted);
            && s1.isActivated && s1.keepAwake.previous == Inhibitor.Zero && s1.os == s.os
            && !s2.isActivated && s2.os == s.os
            && s3.isActivated && s3.primaryText == DeactivateText
            && s3.os.state == Inhibitor.KeepAwakeFlags && s3.keepAwake.previous == s.os.state
  {
  }

  /** On every run in which `activate` never fails, the tray reflects
      `is_activated` at the end of the run. */
  lemma {:induction false} RunReflects(s: State, inputs: seq<Input>)
    requires Valid(s) && Reflects(s) && NeverFails(s, inputs)
    ensures Reflects(Run(s, inputs))
    decreases |inputs|
  {
    if |inputs| > 0 {
      StepReflects(s, inputs[0].event, inputs[0].env);
      RunReflects(Step(s, inputs[0].event, inputs[0].env), inputs[1..]);
    }
  }

  /** Invariant under which `activate` cannot fail when the power subsystem
      accepts every request: the OS state is non-zero. A release cannot
      break it, because a recorded zero state is a one-shot request. */
  predicate Healthy(s: State) {
    s.os.state != Inhibitor.Zero
  }

  /** Every run starts healthy when the OS state is non-zero at start. */
  lemma StartHealthy(b: Boot, env: Env)
    requires b.os.state != Inhibitor.Zero
    ensures Healthy(Start(b, env))
  {
  }

  /** Every event handler keeps the state healthy when the power subsystem
      accepts the request. */
  lemma DispatchHealthy(s: State, e: Event, env: Env)
    requires Ready(s) && Healthy(s) && env.osOk
    ensures Healthy(Dispatch(s, e, env))
  {
  }

  /** An iteration in which the power subsystem accepts the request keeps
      the state healthy, and its activation succeeds. */
  lemma StepHealthy(s: State, e: Event, env: Env)
    requires Valid(s) && Healthy(s) && env.osOk
    ensures ActivationSucceeds(s, env)
    ensures Healthy(Step(s, e, env))
  {
    if s.flow == Waiting {
      DispatchHealthy(s, e, env);
    }
  }

  /** Every input of the run has the power subsystem accept its request. */
  predicate AllAccepted(inputs: seq<Input>) {
    forall i :: 0 <= i < |inputs| ==> inputs[i].env.osOk
  }

  /** If the power subsystem accepts every request and the state is healthy,
      `activate` never fails on the run. */
  lemma {:induction false} AcceptedRunNeverFails(s: State, inputs: seq<Input>)
    requires Valid(s) && Healthy(s) && AllAccepted(inputs)
    ensures NeverFails(s, inputs)
    decreases |inputs|
  {
    if |inputs| > 0 {
      StepHealthy(s, inputs[0].event, inputs[0].env);
      assert AllAccepted(inputs[1..]) by {
        forall i | 0 <= i < |inputs[1..]|
          ensures inputs[1..][i].env.osOk
        {
          assert inputs[1..][i] == inputs[i + 1];
        }
      }
      AcceptedRunNeverFails(Step(s, inputs[0].event, inputs[0].env), inputs[1..]);
    }
  }

  /** From a start with a non-zero OS state, and with every request after
      the start accepted by the power subsystem, the label and icon reflect `is_activated` at
      the end of every run. */
  lemma AcceptedRunReflects(b: Boot, startEnv: Env, inputs: seq<Input>)
    requires b.os.state != Inhibitor.Zero && AllAccepted(inputs)
    ensures Reflects(Run(Start(b, startEnv), inputs))
  {
    StartHealthy(b, startEnv);
    StartReflects(b, startEnv);
    AcceptedRunNeverFails(Start(b, startEnv), inputs);
    RunReflects(Start(b, startEnv), inputs);
  }
}

=== FILE: icons.dfy ===
/** The tray icon chosen for a system theme and activation state (`set_icon`
    in src/helpers.rs). Decoding the icon files is not modelled: an icon is
    named by the asset it comes from. */
module Icons {
  import opened Wrappers

  /** The window theme reported by the toolkit; `Unknown` stands for every
      variant other than light and dark. */
  datatype Theme = Light | Dark | Unknown

  /** Colour of an icon's glyph. */
  datatype Shade = LightShade | DarkShade

  /** The four bundled icon assets. */
  datatype Icon = LightIcon | LightIconActive | DarkIcon | DarkIconActive {

    /** True for the two "active" variants. */
    predicate IsActive() {
      this == LightIconActive || this == DarkIconActive
    }

    /** The colour of the glyph drawn by this asset. */
    function Shade(): Shade {
      if this == LightIcon || this == LightIconActive then LightShade else DarkShade
    }
  }

  /** The glyph colour that stays legible on a theme: the opposite one. */
  function Contrast(theme: Theme): Shade
    requires theme != Unknown
  {
    if theme == Light then DarkShade else LightShade
  }

  /** The icon `set_icon` hands to the tray; `None` for an unknown theme. */
  function SelectIcon(theme: Theme, isActivated: bool): (icon: Option<Icon>)
    ensures icon.Some? <==> theme != Unknown
    ensures icon.Some? ==> icon.value.IsActive() == isActivated
    ensures icon.Some? ==> icon.value.Shade() == Contrast(theme)
  {
    match theme
    case Light => if isActivated then Some(DarkIconActive) else Some(DarkIcon)
    case Dark => if isActivated then Some(LightIconActive) else Some(LightIcon)
    case Unknown => None
  }

  /** Every asset is the selection for exactly one (known theme, state) pair:
      an icon is selected iff its glyph contrasts the theme and its variant
      matches the activation state. */
  lemma SelectIconCharacterised(theme: Theme, isActivated: bool, icon: Icon)
    requires theme != Unknown
    ensures SelectIcon(theme, isActivated) == Some(icon)
        <==> icon.Shade() == Contrast(theme) && icon.IsActive() == isActivated
  {
  }

  /** Distinct (known theme, state) pairs never select the same icon, so the
      icon always tells the active state apart from the idle one. */
  lemma SelectIconInjective(t1: Theme, a1: bool, t2: Theme, a2: bool)
    requires t1 != Unknown && t2 != Unknown
    requires SelectIcon(t1, a1) == SelectIcon(t2, a2)
    ensures t1 == t2 && a1 == a2
  {
  }
}

=== FILE: inhibitor.dfy ===
/** The execution-state inhibitor of src/keepawake.rs: a save/restore bracket
    over the execution state the operating system's power subsystem keeps
    for the calling (main) thread. The OS state is part of the model's
    world, and each call into the power subsystem is the function
    `SetThreadExecutionState` below. */
module Inhibitor {

  /** The execution-state flags the model distinguishes. */
  datatype EsFlag = Continuous | DisplayRequired | SystemRequired

  /** A thread execution state: a set of flags; the empty set is the zero
      state the power subsystem also returns to signal failure. A state
      holding `Continuous` stays in force until the next request that also
      holds `Continuous`. */
  type ExecState = set<EsFlag>

  const Zero: ExecState := {}

  /** The flags `activate` requests: continuous, display and system required. */
  const KeepAwakeFlags: ExecState := {Continuous, DisplayRequired, SystemRequired}

  /** The operating system's current execution state of the main thread. */
  datatype Os = Os(state: ExecState)

  /** The inhibitor value; it is `Clone`, so copies share `previous`. */
  datatype KeepAwake = KeepAwake(previous: ExecState)

  /** The OS after one power-subsystem call and the value the call returned. */
  datatype Call = Call(os: Os, returned: ExecState)

  /** One call into the power subsystem. When the call is accepted (`ok`) it
      returns the state in force before it; a request holding `Continuous`
      replaces that state, and any other request (zero included) is a
      one-shot that leaves the continuous state in force. When the call is
      rejected the state is untouched and zero is returned. */
  function SetThreadExecutionState(os: Os, flags: ExecState, ok: bool): (c: Call)
    ensures c.returned == (if ok then os.state else Zero)
    ensures c.os != os ==> ok && Continuous in flags && c.os.state == flags
    ensures ok && Continuous in flags ==> c.os.state == flags
    ensures Continuous !in flags ==> c.os == os
  {
    if !ok then Call(os, Zero)
    else if Continuous in flags then Call(Os(flags), os.state)
    else Call(os, os.state)
  }

  /** `KeepAwake::new`: no previous state has been recorded yet. */
  function New(): (k: KeepAwake)
    ensures k.previous == Zero
  {
    KeepAwake(Zero)
  }

  /** The inhibitor and OS after `activate`, and whether it returned `Ok`. */
  datatype Activation = Activation(k: KeepAwake, os: Os, success: bool)

  /** `activate`: requests `KeepAwakeFlags` and records whatever the call
      returned as `previous`, on failure too; it fails iff that value is zero. */
  function Activate(k: KeepAwake, os: Os, ok: bool): (a: Activation)
    ensures a.k.previous == (if ok then os.state else Zero)
    ensures a.success <==> a.k.previous != Zero
    ensures a.success <==> ok && os.state != Zero
    ensures a.os.state == (if ok then KeepAwakeFlags else os.state)
  {
    var c := SetThreadExecutionState(os, KeepAwakeFlags, ok);
    Activation(KeepAwake(c.returned), c.os, c.returned != Zero)
  }

  /** `Drop::drop`, run when the value or any clone of it is dropped: the
      recorded previous state is requested again. It replaces the current
      state only when it holds `Continuous`; a recorded zero state, or any
      other one-shot state, leaves the current state in force. */
  function Release(k: KeepAwake, os: Os): (r: Os)
    ensures Continuous in k.previous ==> r.state == k.previous
    ensures Continuous !in k.previous ==> r == os
  {
    SetThreadExecutionState(os, k.previous, true).os
  }

  /** The inhibitor, OS and pending timer expiries after `activate_for`. */
  datatype TimedActivation = TimedActivation(k: KeepAwake, os: Os, pending: multiset<nat>)

  /** `activate_for`: activates and, only if that succeeded, starts a timer
      whose eventual expiry carries `duration`; pending expiries are the
      durations of timers not yet drained. */
  function ActivateFor(k: KeepAwake, os: Os, ok: bool, duration: nat, pending: multiset<nat>): (t: TimedActivation)
    ensures t.k == Activate(k, os, ok).k && t.os == Activate(k, os, ok).os
    ensures Activate(k, os, ok).success ==> t.pending == pending + multiset{duration}
    ensures !Activate(k, os, ok).success ==> t.pending == pending
    ensures t.pending[duration] == pending[duration] + (if ok && os.state != Zero then 1 else 0)
  {
    var a := Activate(k, os, ok);
    TimedActivation(a.k, a.os, if a.success then pending + multiset{duration} else pending)
  }

  /** A single successful activate/release pair is a proper bracket when the
      state it started from was a continuous one: the OS ends in the state it
      had before the activation. From a one-shot state the keep-awake flags
      stay in force after the release. */
  lemma BracketRestores(k: KeepAwake, os: Os, ok: bool)
    requires Activate(k, os, ok).success
    ensures Release(Activate(k, os, ok).k, Activate(k, os, ok).os)
            == (if Continuous in os.state then os else Os(KeepAwakeFlags))
  {
  }

  /** Brackets do not nest: after two successful activations without a
      release, `previous` holds the keep-awake flags the first one installed,
      so the release leaves the system kept awake instead of restoring the
      original state. */
  lemma NestedActivationsDoNotRestore(k: KeepAwake, os: Os)
    requires os.state != Zero
    ensures var a1 := Activate(k, os, true);
            var a2 := Activate(a1.k, a1.os, true);
            a1.success && a2.success
            && a2.k.previous == KeepAwakeFlags
            && Release(a2.k, a2.os).state == KeepAwakeFlags
            && (os.state != KeepAwakeFlags ==> Release(a2.k, a2.os) != os)
  {
  }

  /** Dropping a clone releases exactly like dropping the original, and
      releasing twice is the same as releasing once. */
  lemma ReleaseIdempotent(k: KeepAwake, os: Os)
    ensures Release(k, Release(k, os)) == Release(k, os)
  {
  }

  /** A failed activation records the zero state, and requesting zero is a
      one-shot: the later release leaves in force whatever the activation
      left, which is the original state when the request was rejected. */
  lemma FailedActivationReleaseKeepsState(k: KeepAwake, os: Os, ok: bool)
    requires !Activate(k, os, ok).success
    ensures Activate(k, os, ok).k.previous == Zero
    ensures Release(Activate(k, os, ok).k, Activate(k, os, ok).os) == Activate(k, os, ok).os
    ensures !ok ==> Release(Activate(k, os, ok).k, Activate(k, os, ok).os) == os
  {
  }
}

=== FILE: preferences.dfy ===
/** The preferences store of src/preferences.rs: one table `preferences` of
    string keys to booleans. Every call is one atomic update of the table, so
    a transaction is a map operation. */
module Preferences {
  import opened Wrappers

  /** The contents of the `preferences` table. */
  type Table = map<string, bool>

  const RunActivated: string := "run_activated"
  const ToggleWithLeftClick: string := "activate_on_left_click"

  /** `Preferences::new`: opens the database and creates the table when it is
      missing (`None`); an existing table keeps its contents. */
  function Open(existing: Option<Table>): (t: Table)
    ensures existing.Some? ==> t == existing.value
    ensures existing.None? ==> |t| == 0
  {
    match existing
    case Some(table) => table
    case None => map[]
  }

  /** `exists`: whether a key has a value, that is, whether saving under it
      adds no new key. */
  predicate Exists(t: Table, key: string)
    ensures Exists(t, key) <==> Save(t, key, true).Keys == t.Keys
  {
    key in t
  }

  /** `save_preference`: stores one value, leaving every other key alone. */
  function Save(t: Table, key: string, value: bool): (r: Table)
    ensures r.Keys == t.Keys + {key}
    ensures key in r && r[key] == value
    ensures forall k :: k in t && k != key ==> r[k] == t[k]
  {
    t[key := value]
  }

  /** `load_preference`: reads one value; the source unwraps the lookup, so
      the key must be present. */
  function Load(t: Table, key: string): (v: bool)
    requires Exists(t, key)
    ensures Save(t, key, v) == t
  {
    t[key]
  }

  /** `init`: writes the default of each recognised key (run-activated off,
      toggle-with-left-click on) only when that key is absent. */
  function Init(t: Table): (r: Table)
    ensures Exists(r, RunActivated) && Exists(r, ToggleWithLeftClick)
    ensures r.Keys == t.Keys + {RunActivated, ToggleWithLeftClick}
    ensures forall k :: k in t ==> r[k] == t[k]
    ensures !Exists(t, RunActivated) ==> !Load(r, RunActivated)
    ensures !Exists(t, ToggleWithLeftClick) ==> Load(r, ToggleWithLeftClick)
  {
    var t1 := if !Exists(t, RunActivated) then Save(t, RunActivated, false) else t;
    if !Exists(t1, ToggleWithLeftClick) then Save(t1, ToggleWithLeftClick, true) else t1
  }

  /** `toggle_preference`: loads, then saves the negation. Loading an absent
      key panics inside `load_preference`, so the key must be present. */
  function Toggle(t: Table, key: string): (r: Table)
    requires Exists(t, key)
    ensures r.Keys == t.Keys
    ensures Load(r, key) == !Load(t, key)
    ensures forall k :: k in t && k != key ==> r[k] == t[k]
  {
    if Load(t, key) then Save(t, key, false) else Save(t, key, true)
  }

  /** After `new` and `init` both recognised keys can be loaded. */
  lemma OpenInitDefinesKeys(existing: Option<Table>)
    ensures Exists(Init(Open(existing)), RunActivated)
    ensures Exists(Init(Open(existing)), ToggleWithLeftClick)
    ensures existing.None? ==> Init(Open(existing)) == map[RunActivated := false, ToggleWithLeftClick := true]
  {
  }

  /** `init` is idempotent: a second call leaves the table unchanged. */
  lemma InitIdempotent(t: Table)
    ensures Init(Init(t)) == Init(t)
  {
  }

  /** A saved value is what the next load returns, on every table, and
      every other present key reads as before. */
  lemma SaveThenLoad(t: Table, key: string, value: bool, other: string)
    ensures Exists(Save(t, key, value), key) && Load(Save(t, key, value), key) == value
    ensures other != key && Exists(t, other) ==>
              Exists(Save(t, key, value), other) && Load(Save(t, key, value), other) == Load(t, other)
  {
  }

  /** Toggling a key twice restores the original table. */
  lemma ToggleTwice(t: Table, key: string)
    requires Exists(t, key)
    ensures Toggle(Toggle(t, key), key) == t
  {
  }
}

=== FILE: wrappers.dfy ===
/** Option and Result, shared by the model's modules. */
module Wrappers {

  /** An optional value, as Rust's `Option`. */
  datatype Option<+T> = None | Some(value: T)

  /** The outcome of a fallible call, as Rust's `Result`; the error payload of
      the operating system or database is opaque to the model. */
  datatype Result<+T> = Ok(value: T) | Err
}
